=== FILE: README.md ===
# Factor-grid game rules engine in Dafny

This project models the rules engine of the factor-grid game in `main.cpp`. The board is
a fixed 6x6 table of numbers. The human and a greedy bot take turns. A move picks two
factors in [1, 9] and claims the tile whose number is their product. The first side with
four consecutive tiles in a row or a column wins.

The state is one immutable `Engine.State`:
- the 36 tile owners, row-major;
- `prevFactor` and `currFactor`;
- the side whose turn it is, and the winner;
- the started flag and the "invalid move" notice flag;
- the last two products.

There is one pure step per input: the play click, the four factor keys and Enter. Once
per frame, after all the polled events, comes the bot block (`BotStep`). A whole frame is
`Frame`.

Modules:
- `Tiles`: the number table, owners, and the row-major search for an unclaimed tile.
  It also proves the table's facts. The table is strictly increasing, so its numbers are
  distinct. It is exactly the set of products of two factors in [1, 9].
- `WinCheck`: `isWinningMove`. It is a loop method whose result is proved equal to a
  declarative "four in a line" predicate.
- `Engine`: the state, the intents, reset, commit, and the bot's greedy search.
- `EngineProperties`: the frame invariant, monotone ownership, and the winner being
  terminal. It also holds the clamping facts, the "refused only when claimed" facts, and
  the worked scenarios.

Behaviour of the code that is easy to miss:
- There is no restart. `gameStarted` is never cleared, and the play click only counts
  before the first game (main.cpp:124-129).
- `resetGameState` does not clear the notice (main.cpp:46-57). It runs only once, while
  the notice is still empty, so this is never visible.
- The bot overwrites `prevFactor` with its chosen factor (main.cpp:172). The next human
  move starts from that anchor.
- After a winning human move, `currentPlayer` stays the bot (main.cpp:149, 151).
- When the bot finds no move, the player is declared winner and `currentPlayer` stays the
  bot (main.cpp:184).
- A product that is not on the board never occurs: every product of two factors in
  [1, 9] is on the table. So "invalid move" means only that the tile is already claimed.

The code has no draw. Suppose every tile is claimed, nobody has four in a line, and it is
the player's turn. Then Enter is refused on every later frame and the game never ends
(`EngineProperties.FullBoardStalls`).

Integers: main.cpp uses C++ `int`. All values stay within -1..81, so no overflow is
modelled.

## Model

| member | source | states |
|---|---|---|
| Tiles.NumbersIncreasing | main.cpp:25-32 | the table has 36 entries, strictly increasing in row-major order |
| Tiles.NumbersDistinct | main.cpp:25-32 | the 36 numbers are pairwise distinct |
| Tiles.EntryIsProduct | main.cpp:25-32 | every entry is a * b for some factors a, b in [1, 9] |
| Tiles.ProductOnBoard | main.cpp:25-32 | every product of two factors in [1, 9] is some entry of the table |
| Tiles.FindFrom | main.cpp:143-157 | the row-major scan returns the first index from k on with the wanted number and no owner, and returns none only when there is no such tile |
| Tiles.FindUnclaimed | main.cpp:141-157 | the whole-board search succeeds exactly when some unclaimed tile carries the number, and then returns one |
| Tiles.TileNumbered | main.cpp:62-64 | finds the tile carrying a number exactly when the number is on the table |
| Tiles.FindUnclaimedExact | main.cpp:143-157 | because numbers are distinct, the search returns THE tile numbered n if it is unclaimed and nothing otherwise |
| Tiles.SearchFailsOnlyWhenClaimed | main.cpp:141-158 | for factors in [1, 9] the product always names a tile, and the search fails exactly when that tile is claimed |
| WinCheck.RunBeforeAtLeast | main.cpp:38-39 | the run counter, which any other owner resets to 0, is at least n exactly when the n cells before position j all belong to o |
| WinCheck.RunOfFour | main.cpp:38-40 | the counter reaching 4 at position j is four consecutive cells of o ending there |
| WinCheck.RunMeansWin | main.cpp:38-40 | a row or column counter reaching four means the board has four in a line |
| WinCheck.NoRunMeansNoWin | main.cpp:35-43 | if no counter of the full scan reaches four, there is no four in a line |
| WinCheck.IsWinningMove | main.cpp:34-44 | the early-exit row/column scan answers true exactly when some row or column has four consecutive tiles of o |
| Engine.Initial | main.cpp:85-90 | before the play click the board is empty, the player holds the turn, nobody has won and the game is not started |
| Engine.Reset | main.cpp:46-57 | every tile is unclaimed, the turn is the player's, no winner, both factors 1, both products -1; the started flag and the notice are left alone (tile numbers are a constant table, so untouched) |
| Engine.AdjustFactor | main.cpp:136-139 | a factor key changes only its own factor, keeps factors in [1, 9] and leaves board, turn and winner unchanged |
| Engine.Commit | main.cpp:140-158 | Enter claims exactly one tile, one that carried the product and was unclaimed, for the player; it hands the turn to the bot, clears the notice, shifts the products, and sets the player as winner iff the new board has four in a line; with no such tile only the notice changes |
| Engine.KeyStep | main.cpp:135-140 | the key dispatch: an unrecognised key changes nothing, only Enter can change the board, turn, winner, notice or products, and factors stay in [1, 9]; the factor keys and Enter are described by `AdjustFactor` and `Commit` |
| Engine.Step | main.cpp:120-135 | the play click resets and starts a game only before the first start; once started, a play click or any other non-key event changes nothing; events before the start, after a win or during the bot's turn change nothing |
| Engine.Steps | main.cpp:120-161 | the events polled in one frame, in order: a started game stays started, a decided game is untouched, and only the player can become winner during the events; `StepsPreserveValid` and `StepsKeepClaims` add the invariant and monotone ownership |
| Engine.BotSearch | main.cpp:166-183 | the chosen factor is the least f from the start value up to 9 whose product with the anchor names an unclaimed tile; it returns none only when no f qualifies |
| Engine.BotStep | main.cpp:164-185 | the bot claims exactly one tile, for the least usable f; it sets prevFactor to f, leaves currFactor, hands the turn to the player and wins iff four in a line; with no usable f only the winner changes, to the player; it does nothing outside the bot's turn of a running game |
| Engine.Frame | main.cpp:118-185 | one pass of the main loop: it never ends on an undecided bot turn of a running game, keeps the game started, and leaves a decided game alone; `FramePreservesValid` and `FrameKeepsClaims` add the invariant and monotone ownership |
| Engine.Run | main.cpp:118-185 | a game as a sequence of frames: a started game stays started, a decided game is left alone, and after at least one frame a running game is never left on an undecided bot turn |
| EngineProperties.StepPreservesValid | main.cpp:124-160 | every event keeps factors in [1, 9] and the turn with a player, and nothing moves before the start |
| EngineProperties.StepsPreserveValid | main.cpp:120-161 | the same over all events polled in one frame |
| EngineProperties.BotStepPreservesValid | main.cpp:164-185 | the bot block keeps the invariant; its new anchor is a factor in [1, 9] |
| EngineProperties.InitialIsValid | main.cpp:85-90 | the state before the play click satisfies the invariant |
| EngineProperties.FramePreservesValid | main.cpp:118-185 | a whole frame keeps the invariant |
| EngineProperties.RunPreservesValid | main.cpp:118-185 | any number of frames keeps the invariant, by induction over the frames |
| EngineProperties.GameIsValid | main.cpp:85-185 | every state reached by frames from the state before the play click satisfies the invariant |
| EngineProperties.FrameEndsOnPlayerTurnOrDecided | main.cpp:164-185 | at the end of every frame the player holds the turn or the game is decided |
| EngineProperties.StepKeepsClaims | main.cpp:145-146 | no event takes a tile from its owner |
| EngineProperties.StepClaimsAtMostOne | main.cpp:143-157 | an event changes no tile or exactly one, from unclaimed to the player |
| EngineProperties.BotStepClaimsAtMostOne | main.cpp:168-182 | the bot block changes no tile or exactly one, from unclaimed to the bot |
| EngineProperties.StepsKeepClaims | main.cpp:120-161 | over all events of a frame a claimed tile keeps its owner |
| EngineProperties.FrameKeepsClaims | main.cpp:118-185 | over a whole frame a claimed tile keeps its owner |
| EngineProperties.RunKeepsClaims | main.cpp:118-185 | over any number of frames a claimed tile keeps its owner, by induction over the frames |
| EngineProperties.RunSplits | main.cpp:118-185 | playing one list of frames and then another is playing their concatenation |
| EngineProperties.GameKeepsClaims | main.cpp:85-185 | in a game from the state before the play click, a tile claimed at some point keeps its owner in every later state |
| EngineProperties.WinnerIsTerminal | main.cpp:133-185 | once someone has won, no event and no bot block changes the state |
| EngineProperties.AdjustIsClamped | main.cpp:136-139 | each factor key moves its factor to the neighbour value clamped to [1, 9] |
| EngineProperties.AdjustInverse | main.cpp:136-139 | away from the bounds Right undoes Left, Left undoes Right, D undoes A and A undoes D |
| EngineProperties.RepeatedKeyAtBound | main.cpp:136-139 | pressing a factor key at its bound any number of times leaves the state unchanged |
| EngineProperties.CommitRefusedOnlyWhenClaimed | main.cpp:141-158 | Enter is refused, with only the notice changing, exactly when the tile numbered prevFactor * currFactor is claimed |
| EngineProperties.BotStuckHandsWinToPlayer | main.cpp:166-184 | when every product the anchor can form is claimed, the bot block only declares the player winner |
| EngineProperties.StepOnFullBoard | main.cpp:135-159 | with every tile claimed and no winner on the player's turn, an event leaves the board alone and the game stalled |
| EngineProperties.FullBoardStalls | main.cpp:118-185 | from such a full, undecided board no sequence of frames changes a tile or decides the game |
| EngineProperties.WinNeedsFourTiles | main.cpp:34-44 | a four-in-line for o needs four distinct tiles of o |
| EngineProperties.OneTileNoWin | main.cpp:34-44 | a board with at most one tile of o has no four in a line for o |
| EngineProperties.WinDependsOnlyOnOwnTiles | main.cpp:38-39 | tiles of other owners never contribute: boards that agree on o's tiles agree on o winning |
| EngineProperties.TopRowFourWins | main.cpp:34-44 | four tiles of o at the left of the top row win, and unclaiming any one of them loses the win |
| EngineProperties.ColumnFourWins | main.cpp:34-44 | four tiles of o in rows 0-3 of column 2 win through the column counter, and unclaiming any one of them loses the win |
| EngineProperties.FirstCommitScenario | main.cpp:124-158 | start, then Enter with 1 x 1: the player holds tile 1, the turn passes to the bot, no winner |
| EngineProperties.BotAnswersFirstCommit | main.cpp:164-183 | with only tile 1 taken by the player and anchor 1, the bot block takes tile 2, makes 2 the anchor, shifts the products to 1 and 2, and returns the turn without a win |
| EngineProperties.OpeningScenario | main.cpp:164-183 | the bot, anchored at 1, skips the taken 1 and takes 2; 2 becomes the anchor and the turn returns to the player |
| EngineProperties.InvalidMoveScenario | main.cpp:140-158 | an immediate second Enter (2 x 1, the bot's tile) is refused and only the notice changes |

## Left out

- Rendering: tile shapes, colours, text and status strings (main.cpp:65-75, 94-116, 196-239). This is presentation only.
- Window creation, font loading and window closing (main.cpp:81-83, 121-122). This is I/O. A close event is an `OtherEvent`.
- Hit-testing of the play button (main.cpp:125-126). It becomes the abstract `PlayClick` event. A click elsewhere is an `OtherEvent`.
- Marker positions (main.cpp:188-194). This is floating-point geometry that only drives drawing.
- The `selectors` vector (main.cpp:52, 86). It is written but never read.
- The window-open test of the main loop (main.cpp:118) and the polling itself. A frame is a sequence of events followed by one `BotStep`, and a game is a finite sequence of frames (`Run`).
- The notice text. Only whether the "invalid move" notice is shown is modelled.
- Engine.Step: its contract fixes every case except a key pressed on the player's turn of an undecided game. That case is described by `KeyStep`, `AdjustFactor` and `Commit`, which it calls unchanged.

=== FILE: engine.dfy ===
/** The game state and one pure step per input: the play click, the factor keys,
    the commit key, and the bot's move that runs once per frame. */
module Engine {
  import opened Tiles
  import opened WinCheck

  /** Everything the event loop keeps between frames. `noticeSet` stands for the
      "invalid move" notice being shown; prevResult/currResult are the last two products. */
  datatype State = State(
    owners: Board,
    prevFactor: int,
    currFactor: int,
    currentPlayer: Owner,
    winner: Owner,
    gameStarted: bool,
    noticeSet: bool,
    prevResult: int,
    currResult: int)

  datatype Key = LeftKey | RightKey | AKey | DKey | EnterKey | OtherKey

  /** One polled event, reduced to what the rules see. `PlayClick` is a mouse press
      inside the play button; every other event (other clicks, window close) is `OtherEvent`. */
  datatype Event = PlayClick | KeyPress(key: Key) | OtherEvent

  /** The bot's choice: its second factor and the tile that product names. */
  datatype BotMove = BotMove(factor: int, tile: nat)

  /** The state before the play button is pressed. */
  function Initial(): (s: State)
    ensures !s.gameStarted && s.winner == NoOne && s.currentPlayer == Player
    ensures forall k :: 0 <= k < Cells ==> s.owners[k] == NoOne
  {
    State(EmptyBoard(), 1, 1, Player, NoOne, false, false, -1, -1)
  }

  /** The rules' invariant: factors stay in [1, 9], the turn is always held by a player,
      and nothing moves before the game is started. */
  predicate Valid(s: State) {
    && IsFactor(s.prevFactor)
    && IsFactor(s.currFactor)
    && s.currentPlayer != NoOne
    && (!s.gameStarted ==> s == Initial())
  }

  /** resetGameState: clears every tile and the turn, winner, factors and products.
      It leaves the started flag and the notice alone. */
  function Reset(s: State): (r: State)
    ensures forall k :: 0 <= k < Cells ==> r.owners[k] == NoOne
    ensures r.currentPlayer == Player && r.winner == NoOne
    ensures r.prevFactor == 1 && r.currFactor == 1
    ensures r.prevResult == -1 && r.currResult == -1
    ensures r.gameStarted == s.gameStarted && r.noticeSet == s.noticeSet
  {
    s.(owners := EmptyBoard(), currentPlayer := Player, winner := NoOne,
       prevFactor := 1, currFactor := 1, prevResult := -1, currResult := -1)
  }

  /** Reference for the factor keys: a value pulled back into [1, 9]. */
  function Clamp(x: int): int {
    if x < 1 then 1 else if x > 9 then 9 else x
  }

  /** Left/Right move the current factor, A/D the previous one, by one step;
      a key pressed at the bound does nothing. Nothing else changes. */
  function AdjustFactor(s: State, k: Key): (r: State)
    requires k in {LeftKey, RightKey, AKey, DKey}
    ensures r == s.(prevFactor := r.prevFactor, currFactor := r.currFactor)
    ensures k in {LeftKey, RightKey} ==> r.prevFactor == s.prevFactor
    ensures k in {AKey, DKey} ==> r.currFactor == s.currFactor
    ensures IsFactor(s.currFactor) ==> IsFactor(r.currFactor)
    ensures IsFactor(s.prevFactor) ==> IsFactor(r.prevFactor)
  {
    match k
    case LeftKey => if s.currFactor > 1 then s.(currFactor := s.currFactor - 1) else s
    case RightKey => if s.currFactor < 9 then s.(currFactor := s.currFactor + 1) else s
    case AKey => if s.prevFactor > 1 then s.(prevFactor := s.prevFactor - 1) else s
    case DKey => if s.prevFactor < 9 then s.(prevFactor := s.prevFactor + 1) else s
  }

  /** Enter: claim the first unclaimed tile numbered prevFactor * currFactor for the
      player, or raise the "invalid move" notice when there is none. */
  function Commit(s: State): (r: State)
    ensures var p := s.prevFactor * s.currFactor;
      if HasOpenTile(s.owners, p) then
        && (exists k :: OpenTile(s.owners, k, p) && ClaimsTile(s.owners, r.owners, k, Player))
        && r.currentPlayer == Bot
        && !r.noticeSet
        && r.prevResult == s.currResult && r.currResult == p
        && r.winner == (if HasFourInLine(r.owners, Player) then Player else s.winner)
        && r.prevFactor == s.prevFactor && r.currFactor == s.currFactor
        && r.gameStarted == s.gameStarted
      else
        r == s.(noticeSet := true)
  {
    var p := s.prevFactor * s.currFactor;
    match FindUnclaimed(s.owners, p)
    case None => s.(noticeSet := true)
    case Some(k) =>
      var owners := s.owners[k := Player];
      s.(owners := owners, prevResult := s.currResult, currResult := p,
         currentPlayer := Bot, noticeSet := false,
         winner := if HasFourInLine(owners, Player) then Player else s.winner)
  }

  /** A key press while the player holds the turn. Only Enter can touch the board, the
      turn, the winner or the notice; the factor keys keep factors in range. */
  function KeyStep(s: State, k: Key): (r: State)
    ensures k == OtherKey ==> r == s
    ensures k != EnterKey ==>
      r.owners == s.owners && r.currentPlayer == s.currentPlayer && r.winner == s.winner
      && r.noticeSet == s.noticeSet && r.prevResult == s.prevResult && r.currResult == s.currResult
    ensures r.gameStarted == s.gameStarted
    ensures IsFactor(s.prevFactor) && IsFactor(s.currFactor) ==>
      IsFactor(r.prevFactor) && IsFactor(r.currFactor)
  {
    match k
    case EnterKey => Commit(s)
    case OtherKey => s
    case _ => AdjustFactor(s, k)
  }

  /** One polled event. A play click starts (once) a fresh game; after that, only a key
      pressed on the player's turn of an undecided game does anything. */
  function Step(s: State, e: Event): (r: State)
    ensures !s.gameStarted && e.PlayClick? ==> r == Reset(s).(gameStarted := true)
    ensures (!s.gameStarted && !e.PlayClick?) || (s.gameStarted && s.winner != NoOne) ==> r == s
    ensures s.currentPlayer != Player && s.gameStarted ==> r == s
    ensures s.gameStarted && !e.KeyPress? ==> r == s
  {
    if !s.gameStarted && e.PlayClick? then Reset(s).(gameStarted := true)
    else if !s.gameStarted || s.winner != NoOne then s
    else if e.KeyPress? && s.currentPlayer == Player then KeyStep(s, e.key)
    else s
  }

  /** The events of one frame, in order. A started game stays started, and a decided
      game is left exactly as it is. */
  function Steps(s: State, es: seq<Event>): (r: State)
    ensures s.gameStarted ==> r.gameStarted
    ensures s.gameStarted && s.winner != NoOne ==> r == s
    ensures s.gameStarted && s.winner == NoOne && r.winner != NoOne ==> r.winner == Player
    decreases |es|
  {
    if |es| == 0 then s else Steps(Step(s, es[0]), es[1..])
  }

  /** The bot with anchor factor `anchor` can use second factor g. */
  predicate BotCanUse(b: Board, anchor: int, g: int) {
    HasOpenTile(b, anchor * g)
  }

  /** Greedy search over f, f+1, .., 9 for the first second factor whose product with the
      anchor names an unclaimed tile. */
  function BotSearch(b: Board, anchor: int, f: int): (r: Option<BotMove>)
    requires 1 <= f <= 10
    ensures r.Some? ==> f <= r.value.factor <= 9 && OpenTile(b, r.value.tile, anchor * r.value.factor)
    ensures r.Some? ==> forall g :: f <= g < r.value.factor ==> !BotCanUse(b, anchor, g)
    ensures r.None? ==> forall g :: f <= g <= 9 ==> !BotCanUse(b, anchor, g)
    decreases 10 - f
  {
    if f == 10 then None
    else match FindUnclaimed(b, anchor * f)
      case Some(k) => Some(BotMove(f, k))
      case None => BotSearch(b, anchor, f + 1)
  }

  /** The bot block that runs after the events of each frame. */
  function BotStep(s: State): (r: State)
    ensures !(s.gameStarted && s.currentPlayer == Bot && s.winner == NoOne) ==> r == s
    ensures s.gameStarted && s.currentPlayer == Bot && s.winner == NoOne ==>
      if exists g :: 1 <= g <= 9 && BotCanUse(s.owners, s.prevFactor, g) then
        exists f, k ::
          && 1 <= f <= 9
          && (forall g :: 1 <= g < f ==> !BotCanUse(s.owners, s.prevFactor, g))
          && OpenTile(s.owners, k, s.prevFactor * f)
          && ClaimsTile(s.owners, r.owners, k, Bot)
          && r.prevFactor == f
          && r.currFactor == s.currFactor
          && r.prevResult == s.currResult && r.currResult == s.prevFactor * f
          && r.currentPlayer == Player
          && r.winner == (if HasFourInLine(r.owners, Bot) then Bot else NoOne)
          && r.gameStarted && r.noticeSet == s.noticeSet
      else
        r == s.(winner := Player)
  {
    if s.gameStarted && s.currentPlayer == Bot && s.winner == NoOne then
      match BotSearch(s.owners, s.prevFactor, 1)
      case Some(m) =>
        var owners := s.owners[m.tile := Bot];
        assert ClaimsTile(s.owners, owners, m.tile, Bot);
        assert BotCanUse(s.owners, s.prevFactor, m.factor);
        s.(owners := owners, prevFactor := m.factor,
           prevResult := s.currResult, currResult := s.prevFactor * m.factor,
           currentPlayer := Player,
           winner := if HasFourInLine(owners, Bot) then Bot else s.winner)
      case None => s.(winner := Player)
    else s
  }

  /** One pass of the main loop: all polled events, then the bot block. A frame never
      ends on an undecided bot turn of a running game, and leaves a decided game alone. */
  function Frame(s: State, es: seq<Event>): (r: State)
    ensures r.gameStarted && r.currentPlayer == Bot ==> r.winner != NoOne
    ensures s.gameStarted ==> r.gameStarted
    ensures s.gameStarted && s.winner != NoOne ==> r == s
  {
    BotStep(Steps(s, es))
  }

  /** A game played out frame by frame: each entry of `frames` is the events of one pass of
      the main loop. A started game stays started, and a decided game is left as it is. */
  function Run(s: State, frames: seq<seq<Event>>): (r: State)
    ensures s.gameStarted ==> r.gameStarted
    ensures s.gameStarted && s.winner != NoOne ==> r == s
    ensures |frames| > 0 && r.gameStarted && r.currentPlayer == Bot ==> r.winner != NoOne
    decreases |frames|
  {
    if |frames| == 0 then s else Run(Frame(s, frames[0]), frames[1..])
  }
}

=== FILE: engine_properties.dfy ===
/** Facts that relate several steps of the engine: the invariant every step keeps,
    ownership only growing, a decided game staying decided, the factor keys' clamping,
    and the opening and invalid-move scenarios played out. */
module EngineProperties {
  import opened Tiles
  import opened WinCheck
  import opened Engine

  // ---------------------------------------------------------------- the invariant

  lemma StepPreservesValid(s: State, e: Event)
    requires Valid(s)
    ensures Valid(Step(s, e))
  {
  }

  lemma {:induction false} StepsPreserveValid(s: State, es: seq<Event>)
    requires Valid(s)
    ensures Valid(Steps(s, es))
    decreases |es|
  {
    if |es| > 0 {
      StepPreservesValid(s, es[0]);
      StepsPreserveValid(Step(s, es[0]), es[1..]);
    }
  }

  lemma BotStepPreservesValid(s: State)
    requires Valid(s)
    ensures Valid(BotStep(s))
  {
    if s.gameStarted && s.currentPlayer == Bot && s.winner == NoOne {
      var m := BotSearch(s.owners, s.prevFactor, 1);
      if m.Some? {
        assert IsFactor(m.value.factor);
      }
    }
  }

  /** The state before the play click satisfies the invariant. */
  lemma InitialIsValid()
    ensures Valid(Initial())
  {
  }

  /** Every frame keeps the invariant. */
  lemma FramePreservesValid(s: State, es: seq<Event>)
    requires Valid(s)
    ensures Valid(Frame(s, es))
  {
    StepsPreserveValid(s, es);
    BotStepPreservesValid(Steps(s, es));
  }

  /** Hence every state the main loop reaches from the state before the play click
      satisfies the invariant. */
  lemma {:induction false} RunPreservesValid(s: State, frames: seq<seq<Event>>)
    requires Valid(s)
    ensures Valid(Run(s, frames))
    decreases |frames|
  {
    if |frames| > 0 {
      FramePreservesValid(s, frames[0]);
      RunPreservesValid(Frame(s, frames[0]), frames[1..]);
    }
  }

  lemma GameIsValid(frames: seq<seq<Event>>)
    ensures Valid(Run(Initial(), frames))
  {
    InitialIsValid();
    RunPreservesValid(Initial(), frames);
  }

  // ---------------------------------------------------------------- turns

  /** When a frame ends, either the player holds the turn or the game is decided:
      a bot turn is always answered in the same frame. */
  lemma FrameEndsOnPlayerTurnOrDecided(s: State, es: seq<Event>)
    requires Valid(s)
    ensures Frame(s, es).currentPlayer == Player || Frame(s, es).winner != NoOne
  {
    StepsPreserveValid(s, es);
  }

  // ---------------------------------------------------------------- ownership

  /** No step takes a tile away from its owner. */
  lemma StepKeepsClaims(s: State, e: Event)
    requires Valid(s)
    ensures forall k :: 0 <= k < Cells && s.owners[k] != NoOne ==> Step(s, e).owners[k] == s.owners[k]
  {
  }

  /** An event changes at most one tile, from NoOne to the player. */
  lemma StepClaimsAtMostOne(s: State, e: Event)
    requires Valid(s)
    ensures var r := Step(s, e);
      r.owners == s.owners || exists k :: ClaimsTile(s.owners, r.owners, k, Player)
  {
    if !s.gameStarted && e.PlayClick? {
      assert Step(s, e).owners == s.owners;
    }
  }

  /** The bot block changes at most one tile, from NoOne to the bot. */
  lemma BotStepClaimsAtMostOne(s: State)
    ensures var r := BotStep(s);
      r.owners == s.owners || exists k :: ClaimsTile(s.owners, r.owners, k, Bot)
  {
  }

  lemma {:induction false} StepsKeepClaims(s: State, es: seq<Event>, k: int)
    requires Valid(s)
    requires 0 <= k < Cells && s.owners[k] != NoOne
    ensures Steps(s, es).owners[k] == s.owners[k]
    decreases |es|
  {
    if |es| > 0 {
      StepKeepsClaims(s, es[0]);
      StepPreservesValid(s, es[0]);
      StepsKeepClaims(Step(s, es[0]), es[1..], k);
    }
  }

  /** Across a whole frame, a claimed tile keeps its owner. */
  lemma FrameKeepsClaims(s: State, es: seq<Event>, k: int)
    requires Valid(s)
    requires 0 <= k < Cells && s.owners[k] != NoOne
    ensures Frame(s, es).owners[k] == s.owners[k]
  {
    StepsKeepClaims(s, es, k);
  }

  /** Over any number of frames, a claimed tile keeps its owner. */
  lemma {:induction false} RunKeepsClaims(s: State, frames: seq<seq<Event>>, k: int)
    requires Valid(s)
    requires 0 <= k < Cells && s.owners[k] != NoOne
    ensures Run(s, frames).owners[k] == s.owners[k]
    decreases |frames|
  {
    if |frames| > 0 {
      FrameKeepsClaims(s, frames[0], k);
      FramePreservesValid(s, frames[0]);
      RunKeepsClaims(Frame(s, frames[0]), frames[1..], k);
    }
  }

  /** In a game played from the state before the play click, a tile once claimed keeps
      its owner in every later state. */
  lemma GameKeepsClaims(early: seq<seq<Event>>, later: seq<seq<Event>>, k: int)
    requires 0 <= k < Cells && Run(Initial(), early).owners[k] != NoOne
    ensures Run(Initial(), early + later).owners[k] == Run(Initial(), early).owners[k]
  {
    GameIsValid(early);
    RunSplits(Initial(), early, later);
    RunKeepsClaims(Run(Initial(), early), later, k);
  }

  /** Playing `early` then `later` is playing their concatenation. */
  lemma {:induction false} RunSplits(s: State, early: seq<seq<Event>>, later: seq<seq<Event>>)
    ensures Run(s, early + later) == Run(Run(s, early), later)
    decreases |early|
  {
    if |early| > 0 {
      assert (early + later)[0] == early[0];
      assert (early + later)[1..] == early[1..] + later;
      RunSplits(Frame(s, early[0]), early[1..], later);
    } else {
      assert early + later == later;
    }
  }

  // ---------------------------------------------------------------- a decided game

  /** Once someone has won, no event and no bot block changes anything. */
  lemma WinnerIsTerminal(s: State, e: Event)
    requires Valid(s) && s.winner != NoOne
    ensures Step(s, e) == s
    ensures BotStep(s) == s
  {
  }

  // ---------------------------------------------------------------- factor keys

  /** In a valid state every factor key lands its factor on the clamped neighbour. */
  lemma AdjustIsClamped(s: State)
    requires Valid(s)
    ensures AdjustFactor(s, LeftKey).currFactor == Clamp(s.currFactor - 1)
    ensures AdjustFactor(s, RightKey).currFactor == Clamp(s.currFactor + 1)
    ensures AdjustFactor(s, AKey).prevFactor == Clamp(s.prevFactor - 1)
    ensures AdjustFactor(s, DKey).prevFactor == Clamp(s.prevFactor + 1)
  {
  }

  /** Away from the bounds, Right undoes Left and D undoes A (and the other way round). */
  lemma AdjustInverse(s: State)
    requires Valid(s)
    ensures s.currFactor > 1 ==> AdjustFactor(AdjustFactor(s, LeftKey), RightKey) == s
    ensures s.currFactor < 9 ==> AdjustFactor(AdjustFactor(s, RightKey), LeftKey) == s
    ensures s.prevFactor > 1 ==> AdjustFactor(AdjustFactor(s, AKey), DKey) == s
    ensures s.prevFactor < 9 ==> AdjustFactor(AdjustFactor(s, DKey), AKey) == s
  {
  }

  /** Whether a key pushes its factor against a bound it already sits at. */
  predicate AtBound(s: State, k: Key) {
    || (k == LeftKey && s.currFactor == 1)
    || (k == RightKey && s.currFactor == 9)
    || (k == AKey && s.prevFactor == 1)
    || (k == DKey && s.prevFactor == 9)
  }

  /** Pressing a key at its bound any number of times leaves the whole state alone. */
  lemma {:induction false} RepeatedKeyAtBound(s: State, k: Key, n: nat)
    requires Valid(s) && AtBound(s, k)
    ensures Steps(s, seq(n, _ => KeyPress(k))) == s
    decreases n
  {
    var es := seq(n, _ => KeyPress(k));
    if n > 0 {
      assert es[0] == KeyPress(k);
      assert es[1..] == seq(n - 1, _ => KeyPress(k));
      assert Step(s, KeyPress(k)) == s;
      RepeatedKeyAtBound(s, k, n - 1);
    }
  }

  // ---------------------------------------------------------------- commit

  /** With factors in range the product always names a tile, so Enter is refused
      exactly when that tile is already claimed. */
  lemma CommitRefusedOnlyWhenClaimed(s: State)
    requires Valid(s)
    ensures TileNumbered(s.prevFactor * s.currFactor).Some?
    ensures Commit(s) == s.(noticeSet := true) <==>
      s.owners[TileNumbered(s.prevFactor * s.currFactor).value] != NoOne
  {
    var p := s.prevFactor * s.currFactor;
    SearchFailsOnlyWhenClaimed(s.owners, s.prevFactor, s.currFactor);
    if FindUnclaimed(s.owners, p).Some? {
      assert !Commit(s).noticeSet;
    }
  }

  /** If every product the anchor can form is taken, the bot hands the game to the player. */
  lemma BotStuckHandsWinToPlayer(s: State)
    requires Valid(s) && s.gameStarted && s.currentPlayer == Bot && s.winner == NoOne
    requires forall f :: 1 <= f <= 9 ==>
      TileNumbered(s.prevFactor * f).Some? && s.owners[TileNumbered(s.prevFactor * f).value] != NoOne
    ensures BotStep(s) == s.(winner := Player)
  {
    forall g | 1 <= g <= 9
      ensures !BotCanUse(s.owners, s.prevFactor, g)
    {
      SearchFailsOnlyWhenClaimed(s.owners, s.prevFactor, g);
    }
  }

  /** The rules have no draw: with every tile claimed and nobody winning on the player's
      turn, Enter is refused forever, so frames never change the board or decide the game. */
  predicate Stalled(s: State) {
    && Valid(s) && s.gameStarted && s.winner == NoOne && s.currentPlayer == Player
    && forall k :: 0 <= k < Cells ==> s.owners[k] != NoOne
  }

  lemma StepOnFullBoard(s: State, e: Event)
    requires Stalled(s)
    ensures Stalled(Step(s, e)) && Step(s, e).owners == s.owners
  {
    assert !HasOpenTile(s.owners, s.prevFactor * s.currFactor);
  }

  lemma {:induction false} FullBoardStalls(s: State, es: seq<Event>)
    requires Stalled(s)
    ensures Stalled(Frame(s, es)) && Frame(s, es).owners == s.owners
    decreases |es|
  {
    if |es| > 0 {
      StepOnFullBoard(s, es[0]);
      FullBoardStalls(Step(s, es[0]), es[1..]);
    }
  }

  // ---------------------------------------------------------------- win detection

  /** Tiles k1 < k2 < k3 < k4 all belong to o. */
  predicate FourTilesOf(b: Board, o: Owner, k1: int, k2: int, k3: int, k4: int) {
    && 0 <= k1 < k2 < k3 < k4 < Cells
    && b[k1] == o && b[k2] == o && b[k3] == o && b[k4] == o
  }

  /** A win needs four distinct tiles of the winner. */
  lemma WinNeedsFourTiles(b: Board, o: Owner)
    requires HasFourInLine(b, o)
    ensures exists k1, k2, k3, k4 :: FourTilesOf(b, o, k1, k2, k3, k4)
  {
    var i, j :| 0 <= i < 6 && 0 <= j < 6 &&
      (FourFrom(RowCells(b, i), o, j) || FourFrom(ColCells(b, i), o, j));
    if FourFrom(RowCells(b, i), o, j) {
      RowFourTiles(b, o, i, j);
    } else {
      ColFourTiles(b, o, i, j);
    }
  }

  /** A board holding at most one tile of o, at t, has no four in a line for o. */
  lemma OneTileNoWin(b: Board, o: Owner, t: int)
    requires forall k :: 0 <= k < Cells && k != t ==> b[k] != o
    ensures !HasFourInLine(b, o)
  {
    forall i, j | 0 <= i < 6 && 0 <= j < 6 && j + 4 <= 6
      ensures !FourFrom(RowCells(b, i), o, j) && !FourFrom(ColCells(b, i), o, j)
    {
      assert RowCells(b, i)[j] != o || RowCells(b, i)[j + 1] != o by {
        assert RowCells(b, i)[j] == b[Idx(i, j)] && RowCells(b, i)[j + 1] == b[Idx(i, j + 1)];
      }
      assert ColCells(b, i)[j] != o || ColCells(b, i)[j + 1] != o by {
        assert ColCells(b, i)[j] == b[Idx(j, i)] && ColCells(b, i)[j + 1] == b[Idx(j + 1, i)];
      }
    }
  }

  lemma RowFourTiles(b: Board, o: Owner, i: int, j: int)
    requires 0 <= i < 6 && FourFrom(RowCells(b, i), o, j)
    ensures exists k1, k2, k3, k4 :: FourTilesOf(b, o, k1, k2, k3, k4)
  {
    RowCellOwned(b, o, i, j, j);
    RowCellOwned(b, o, i, j, j + 1);
    RowCellOwned(b, o, i, j, j + 2);
    RowCellOwned(b, o, i, j, j + 3);
    assert FourTilesOf(b, o, 6 * i + j, 6 * i + j + 1, 6 * i + j + 2, 6 * i + j + 3);
  }

  lemma ColFourTiles(b: Board, o: Owner, i: int, j: int)
    requires 0 <= i < 6 && FourFrom(ColCells(b, i), o, j)
    ensures exists k1, k2, k3, k4 :: FourTilesOf(b, o, k1, k2, k3, k4)
  {
    ColCellOwned(b, o, i, j, j);
    ColCellOwned(b, o, i, j, j + 1);
    ColCellOwned(b, o, i, j, j + 2);
    ColCellOwned(b, o, i, j, j + 3);
    assert FourTilesOf(b, o, 6 * j + i, 6 * j + i + 6, 6 * j + i + 12, 6 * j + i + 18);
  }

  lemma RowCellOwned(b: Board, o: Owner, i: int, j: int, t: int)
    requires 0 <= i < 6 && FourFrom(RowCells(b, i), o, j) && j <= t < j + 4
    ensures b[6 * i + t] == o
  {
    assert RowCells(b, i)[t] == o;
  }

  lemma ColCellOwned(b: Board, o: Owner, i: int, j: int, t: int)
    requires 0 <= i < 6 && FourFrom(ColCells(b, i), o, j) && j <= t < j + 4
    ensures b[6 * t + i] == o
  {
    assert ColCells(b, i)[t] == o;
  }

  /** Only the tiles of o matter: tiles of the other owners never contribute. */
  lemma WinDependsOnlyOnOwnTiles(b: Board, b': Board, o: Owner)
    requires forall k :: 0 <= k < Cells ==> (b[k] == o <==> b'[k] == o)
    ensures HasFourInLine(b, o) <==> HasFourInLine(b', o)
  {
    forall i, j | 0 <= i < 6 && 0 <= j < 6
      ensures FourFrom(RowCells(b, i), o, j) <==> FourFrom(RowCells(b', i), o, j)
      ensures FourFrom(ColCells(b, i), o, j) <==> FourFrom(ColCells(b', i), o, j)
    {
    }
  }

  /** The top-left four tiles of row 0 owned by o, everything else unclaimed. */
  function TopRowFour(o: Owner): Board {
    seq(36, k => if k < 4 then o else NoOne)
  }

  /** Four in a row wins; taking back any one of the four tiles loses the win. */
  lemma TopRowFourWins(o: Owner, t: int)
    requires o != NoOne && 0 <= t < 4
    ensures HasFourInLine(TopRowFour(o), o)
    ensures !HasFourInLine(TopRowFour(o)[t := NoOne], o)
  {
    assert FourFrom(RowCells(TopRowFour(o), 0), o, 0);
    if HasFourInLine(TopRowFour(o)[t := NoOne], o) {
      WinNeedsFourTiles(TopRowFour(o)[t := NoOne], o);
    }
  }

  /** Four tiles of o in column 2, rows 0 to 3, everything else unclaimed. */
  function ColumnFour(o: Owner): Board {
    seq(36, k => if k in [2, 8, 14, 20] then o else NoOne)
  }

  /** Four in a column wins; taking back any one of the four tiles loses the win. */
  lemma ColumnFourWins(o: Owner, t: int)
    requires o != NoOne && t in [2, 8, 14, 20]
    ensures HasFourInLine(ColumnFour(o), o)
    ensures !HasFourInLine(ColumnFour(o)[t := NoOne], o)
  {
    var b := ColumnFour(o);
    assert b[Idx(0, 2)] == o && b[Idx(1, 2)] == o && b[Idx(2, 2)] == o && b[Idx(3, 2)] == o;
    assert FourFrom(ColCells(b, 2), o, 0);
    if HasFourInLine(b[t := NoOne], o) {
      WinNeedsFourTiles(b[t := NoOne], o);
    }
  }

  // ---------------------------------------------------------------- scenarios

  /** Start and Enter with 1 x 1: the player takes the tile numbered 1. */
  function FirstCommit(): State {
    Steps(Initial(), [PlayClick, KeyPress(EnterKey)])
  }

  /** The bot's reply closes the first frame. */
  function Opening(): State {
    Frame(Initial(), [PlayClick, KeyPress(EnterKey)])
  }

  lemma FirstCommitScenario()
    ensures FirstCommit().owners == EmptyBoard()[0 := Player]
    ensures FirstCommit().gameStarted && FirstCommit().currentPlayer == Bot
    ensures FirstCommit().winner == NoOne && !FirstCommit().noticeSet
    ensures FirstCommit().prevFactor == 1 && FirstCommit().currFactor == 1
    ensures FirstCommit().prevResult == -1 && FirstCommit().currResult == 1
  {
    var s1 := Step(Initial(), PlayClick);
    assert s1 == Initial().(gameStarted := true);
    FindUnclaimedExact(s1.owners, 1, 0);
    var s2 := Step(s1, KeyPress(EnterKey));
    assert s2.owners == EmptyBoard()[0 := Player];
    OneTileNoWin(s2.owners, Player, 0);
    calc {
      Steps(Initial(), [PlayClick, KeyPress(EnterKey)]);
      { assert [PlayClick, KeyPress(EnterKey)][1..] == [KeyPress(EnterKey)]; }
      Steps(s1, [KeyPress(EnterKey)]);
      { assert [KeyPress(EnterKey)][1..] == []; }
      Steps(s2, []);
    }
  }

  /** The player has taken the tile numbered 1; the bot, anchored at 1, finds 1 taken and
      takes 2, which makes 2 the next anchor. */
  lemma OpeningScenario()
    ensures Opening().owners[0] == Player && Opening().owners[1] == Bot
    ensures forall k :: 2 <= k < Cells ==> Opening().owners[k] == NoOne
    ensures Opening().currentPlayer == Player && Opening().winner == NoOne
    ensures Opening().prevFactor == 2 && Opening().currFactor == 1
    ensures Opening().prevResult == 1 && Opening().currResult == 2
  {
    FirstCommitScenario();
    BotAnswersFirstCommit(FirstCommit());
  }

  /** The bot block on any state that has the player on tile 1 alone and anchor 1. */
  lemma BotAnswersFirstCommit(s: State)
    requires s.owners == EmptyBoard()[0 := Player]
    requires s.gameStarted && s.currentPlayer == Bot && s.winner == NoOne
    requires s.prevFactor == 1 && s.currResult == 1
    ensures BotStep(s) == s.(owners := EmptyBoard()[0 := Player][1 := Bot], prevFactor := 2,
                             prevResult := 1, currResult := 2, currentPlayer := Player)
  {
    FindUnclaimedExact(s.owners, 1, 0);
    FindUnclaimedExact(s.owners, 2, 1);
    assert BotSearch(s.owners, 1, 1) == Some(BotMove(2, 1));
    OneTileNoWin(s.owners[1 := Bot], Bot, 1);
  }

  /** Pressing Enter again at once is refused: the anchor is now 2 and 2 x 1 is the bot's tile. */
  lemma InvalidMoveScenario()
    ensures Step(Opening(), KeyPress(EnterKey)) == Opening().(noticeSet := true)
  {
    OpeningScenario();
    FindUnclaimedExact(Opening().owners, 2, 1);
  }
}

=== FILE: tiles.dfy ===
/** The fixed 6x6 number table and the ownership of its tiles.
    Tiles are addressed row-major: tile (i, j) sits at index Idx(i, j) = 6 * i + j,
    so scanning indices 0, 1, .., 35 is the row-by-row, left-to-right scan of main.cpp. */
module Tiles {

  /** Who holds a tile. The same tag also records whose turn it is and who won. */
  datatype Owner = NoOne | Player | Bot

  datatype Option<T> = None | Some(value: T)

  // Contracts use these names. Bodies and bounds that the solver computes with (Idx,
  // seq(36, ..), the 0..6 loop ranges) write the numerals 6 and 36 instead, so that
  // 6 * i stays linear arithmetic rather than a product of two unknowns.
  const Rows: nat := 6
  const Cols: nat := 6
  const Cells: nat := 36

  /** The constant layout table, row-major. The tile numbers never change. */
  const Numbers: seq<int> := [
     1,  2,  3,  4,  5,  6,
     7,  8,  9, 10, 12, 14,
    15, 16, 18, 20, 21, 24,
    25, 27, 28, 30, 32, 35,
    36, 40, 42, 45, 48, 49,
    54, 56, 63, 64, 72, 81]

  /** Ownership of the 36 tiles, row-major. */
  type Board = b: seq<Owner> | |b| == 36 witness EmptyBoard()

  function EmptyBoard(): seq<Owner> {
    seq(36, _ => NoOne)
  }

  function Idx(i: int, j: int): (k: int)
    requires 0 <= i < Rows && 0 <= j < Cols
    ensures 0 <= k < Cells
  {
    6 * i + j
  }

  /** Two factors in the range the factor selectors offer. */
  predicate IsFactor(f: int) {
    1 <= f <= 9
  }

  ghost predicate IsFactorProduct(n: int) {
    exists a, b :: IsFactor(a) && IsFactor(b) && n == a * b
  }

  /** Tile k carries number n and nobody has claimed it. */
  predicate OpenTile(b: Board, k: int, n: int) {
    0 <= k < Cells && Numbers[k] == n && b[k] == NoOne
  }

  /** Some tile numbered n is still unclaimed. */
  predicate HasOpenTile(b: Board, n: int) {
    exists k :: 0 <= k < Cells && OpenTile(b, k, n)
  }

  /** `after` is `before` with exactly tile k moved from NoOne to o. */
  predicate ClaimsTile(before: Board, after: Board, k: int, o: Owner) {
    && 0 <= k < Cells
    && before[k] == NoOne
    && after[k] == o
    && forall j :: 0 <= j < Cells && j != k ==> after[j] == before[j]
  }

  /** Row-major search, from index k on, for the first unclaimed tile numbered n. */
  function FindFrom(b: Board, n: int, k: nat): (r: Option<nat>)
    requires k <= Cells
    ensures r.Some? ==> k <= r.value && OpenTile(b, r.value, n)
    ensures r.Some? ==> forall j :: k <= j < r.value ==> !OpenTile(b, j, n)
    ensures r.None? ==> forall j :: k <= j < Cells ==> !OpenTile(b, j, n)
    decreases Cells - k
  {
    if k == Cells then None
    else if OpenTile(b, k, n) then Some(k)
    else FindFrom(b, n, k + 1)
  }

  /** The search both the human commit and the bot run over the whole board. */
  function FindUnclaimed(b: Board, n: int): (r: Option<nat>)
    ensures r.Some? <==> HasOpenTile(b, n)
    ensures r.Some? ==> OpenTile(b, r.value, n)
  {
    FindFrom(b, n, 0)
  }

  /** Where number n sits on the board, whoever owns it. */
  function TileNumbered(n: int): (r: Option<nat>)
    ensures r.Some? <==> exists k :: 0 <= k < Cells && Numbers[k] == n
    ensures r.Some? ==> r.value < Cells && Numbers[r.value] == n
  {
    var r := FindFrom(EmptyBoard(), n, 0);
    assert forall k :: 0 <= k < Cells && Numbers[k] == n ==> OpenTile(EmptyBoard(), k, n);
    r
  }

  /** The table is strictly increasing in row-major order. */
  lemma NumbersIncreasing()
    ensures |Numbers| == Cells
    ensures forall i, j :: 0 <= i < j < Cells ==> Numbers[i] < Numbers[j]
  {
  }

  /** Hence the 36 numbers are pairwise distinct. */
  lemma NumbersDistinct()
    ensures forall i, j :: 0 <= i < Cells && 0 <= j < Cells && i != j ==> Numbers[i] != Numbers[j]
  {
    NumbersIncreasing();
  }

  /** A witness for every entry: Numbers[k] == LeftFactor[k] * (Numbers[k] / LeftFactor[k]). */
  ghost const LeftFactor: seq<int> := [
    1, 1, 1, 1, 1, 1,
    1, 1, 1, 2, 2, 2,
    3, 2, 2, 4, 3, 3,
    5, 3, 4, 5, 4, 5,
    4, 5, 6, 5, 6, 7,
    6, 7, 7, 8, 8, 9]

  /** Every entry of the table is the product of two factors in [1, 9]. */
  lemma EntryIsProduct(k: int)
    requires 0 <= k < Cells
    ensures IsFactorProduct(Numbers[k])
  {
    var a := LeftFactor[k];
    var b := Numbers[k] / a;
    assert IsFactor(a) && IsFactor(b) && Numbers[k] == a * b;
  }

  /** Every product of two factors in [1, 9] is on the table. */
  lemma ProductOnBoard(a: int, b: int)
    requires IsFactor(a) && IsFactor(b)
    ensures exists k :: 0 <= k < Cells && Numbers[k] == a * b
  {
    ProductInTable(a, b);
  }

  lemma ProductInTable(a: int, b: int)
    requires IsFactor(a) && IsFactor(b)
    ensures a * b in Numbers
  {
    if a == 1 {
    } else if a == 2 {
    } else if a == 3 {
    } else if a == 4 {
    } else if a == 5 {
    } else if a == 6 {
    } else if a == 7 {
    } else if a == 8 {
    } else {
    }
  }

  /** Because the numbers are distinct, an open tile numbered n is THE tile numbered n,
      and the search finds exactly it. */
  lemma FindUnclaimedExact(b: Board, n: int, k: int)
    requires 0 <= k < Cells && Numbers[k] == n
    ensures FindUnclaimed(b, n) == (if b[k] == NoOne then Some(k) else None)
  {
    NumbersDistinct();
    if b[k] == NoOne {
      assert OpenTile(b, k, n);
    }
  }

  /** For factors in range, a search fails exactly when the one tile numbered a * b
      is already claimed. */
  lemma SearchFailsOnlyWhenClaimed(b: Board, x: int, y: int)
    requires IsFactor(x) && IsFactor(y)
    ensures TileNumbered(x * y).Some?
    ensures FindUnclaimed(b, x * y).None? <==> b[TileNumbered(x * y).value] != NoOne
  {
    ProductOnBoard(x, y);
    FindUnclaimedExact(b, x * y, TileNumbered(x * y).value);
  }
}

=== FILE: win_check.dfy ===
/** Win detection: four consecutive tiles of one owner in a row or a column. */
module WinCheck {
  import opened Tiles

  /** Row i of the board, left to right. */
  function RowCells(b: Board, i: int): (line: seq<Owner>)
    requires 0 <= i < Rows
    ensures |line| == Cols
    ensures forall j :: 0 <= j < Cols ==> line[j] == b[Idx(i, j)]
  {
    seq(6, j requires 0 <= j < 6 => b[Idx(i, j)])
  }

  /** Column i of the board, top to bottom. */
  function ColCells(b: Board, i: int): (line: seq<Owner>)
    requires 0 <= i < Cols
    ensures |line| == Rows
    ensures forall j :: 0 <= j < Rows ==> line[j] == b[Idx(j, i)]
  {
    seq(6, j requires 0 <= j < 6 => b[Idx(j, i)])
  }

  /** Positions j .. j+3 of the line all belong to o. */
  predicate FourFrom(line: seq<Owner>, o: Owner, j: int) {
    0 <= j && j + 4 <= |line| && forall t :: j <= t < j + 4 ==> line[t] == o
  }

  /** The winning condition: some row or some column holds four consecutive tiles of o. */
  predicate HasFourInLine(b: Board, o: Owner) {
    exists i, j :: 0 <= i < 6 && 0 <= j < 6 &&
      (FourFrom(RowCells(b, i), o, j) || FourFrom(ColCells(b, i), o, j))
  }

  /** The running counter of the scan: how many tiles of o end just before position j.
      Any tile not owned by o resets it to 0. */
  function RunBefore(line: seq<Owner>, o: Owner, j: int): (n: nat)
    requires 0 <= j <= |line|
    ensures n <= j
  {
    if j == 0 then 0
    else if line[j - 1] == o then RunBefore(line, o, j - 1) + 1
    else 0
  }

  /** The counter is at least n exactly when the n positions before j all belong to o. */
  lemma {:induction false} RunBeforeAtLeast(line: seq<Owner>, o: Owner, j: int, n: nat)
    requires 0 <= j <= |line|
    ensures RunBefore(line, o, j) >= n <==> n <= j && forall t :: j - n <= t < j ==> line[t] == o
  {
    if n == 0 {
    } else if j == 0 {
    } else if line[j - 1] == o {
      RunBeforeAtLeast(line, o, j - 1, n - 1);
      if n <= j && forall t :: j - n <= t < j ==> line[t] == o {
        assert forall t :: (j - 1) - (n - 1) <= t < j - 1 ==> line[t] == o;
      }
    } else {
      if n <= j {
        assert j - n <= j - 1 < j && line[j - 1] != o;
      }
    }
  }

  /** The counter reaching four before position j is a four-in-line ending there. */
  lemma RunOfFour(line: seq<Owner>, o: Owner, j: int)
    requires 0 <= j <= |line|
    ensures RunBefore(line, o, j) >= 4 <==> FourFrom(line, o, j - 4)
  {
    RunBeforeAtLeast(line, o, j, 4);
  }

  /** A counter of four along some row or column is a four-in-line. */
  lemma RunMeansWin(b: Board, o: Owner, i: int, j: int)
    requires 0 <= i < 6 && 0 <= j <= 6
    requires RunBefore(RowCells(b, i), o, j) >= 4 || RunBefore(ColCells(b, i), o, j) >= 4
    ensures HasFourInLine(b, o)
  {
    RunOfFour(RowCells(b, i), o, j);
    RunOfFour(ColCells(b, i), o, j);
    assert FourFrom(RowCells(b, i), o, j - 4) || FourFrom(ColCells(b, i), o, j - 4);
  }

  /** If no counter ever reaches four, there is no four-in-line. */
  lemma NoRunMeansNoWin(b: Board, o: Owner)
    requires forall i, j :: 0 <= i < 6 && 0 <= j <= 6 ==>
      RunBefore(RowCells(b, i), o, j) < 4 && RunBefore(ColCells(b, i), o, j) < 4
    ensures !HasFourInLine(b, o)
  {
    forall i, j | 0 <= i < 6 && 0 <= j < 6
      ensures !FourFrom(RowCells(b, i), o, j) && !FourFrom(ColCells(b, i), o, j)
    {
      if j + 4 <= 6 {
        RunOfFour(RowCells(b, i), o, j + 4);
        RunOfFour(ColCells(b, i), o, j + 4);
      }
    }
  }

  /** `isWinningMove` in main.cpp: for each index i it counts the run along row i and along
      column i in the same pass, and stops as soon as either run reaches 4. */
  method IsWinningMove(b: Board, o: Owner) returns (win: bool)
    ensures win <==> HasFourInLine(b, o)
  {
    for i := 0 to 6
      invariant forall i', j' :: 0 <= i' < i && 0 <= j' <= 6 ==>
        RunBefore(RowCells(b, i'), o, j') < 4 && RunBefore(ColCells(b, i'), o, j') < 4
    {
      var row, col := 0, 0;
      for j := 0 to 6
        invariant row == RunBefore(RowCells(b, i), o, j)
        invariant col == RunBefore(ColCells(b, i), o, j)
        invariant forall j' :: 0 <= j' <= j ==>
          RunBefore(RowCells(b, i), o, j') < 4 && RunBefore(ColCells(b, i), o, j') < 4
      {
        assert RowCells(b, i)[j] == b[Idx(i, j)] && ColCells(b, i)[j] == b[Idx(j, i)];
        row := if b[Idx(i, j)] == o then row + 1 else 0;
        col := if b[Idx(j, i)] == o then col + 1 else 0;
        if row == 4 || col == 4 {
          RunMeansWin(b, o, i, j + 1);
          return true;
        }
      }
    }
    NoRunMeansNoWin(b, o);
    return false;
  }
}
